=== FILE: README.md ===
# Scrubber: a verified model of a draggable slider's input logic

The scrubber is a horizontal slider widget. A press on its fill, knob or back
track starts tracking the pointer. Each move maps the pointer's page
coordinate to a whole percentage of the track. That percentage is mapped to a
value bounded by the configured `maxValue`. A release ends tracking, and a
window resize re-reads the track geometry. A move that reports no pressed
button while tracking removes every listener. The widget is never re-armed,
so it stops reacting for good.

This project models that logic without the DOM:

- `wrappers.dfy` (module `Wrappers`): `Option`, used for a failed `parseInt`
  and for an absent `buttons` field.
- `mapping.dfy` (module `Mapping`): `getPercentage` and `getValue` on exact
  reals, written the way the source writes them (`min`, `ceil`, `max`, a
  division). There is also an independent integer characterisation of the
  percentage (`PercentageOf`, built on `CeilDiv`).
- `config.dfy` (module `Config`): the `parseInt(x, 10) || fallback` defaulting
  of `minValue` and `maxValue`.
- `scrubber.dfy` (module `Scrubber`): the instance's fields as an immutable
  `State`, one transition function per handler, a dispatcher `Step` that drops
  every event once `listening` is false, and `Run` over a sequence of events.

Events are a datatype.
- `Down` stands for mousedown/touchstart and carries the target, `which`,
  `pageX` and the geometry the handler re-reads.
- `Move` stands for mousemove/touchmove and carries `which`, an optional
  `buttons` and `pageX`.
- `Up` stands for mouseup/touchend.
- `Resize` carries the re-read geometry.

Track widths have the subset type `Width`, which holds only positive integers.

Facts about the code that the model keeps as written:
- For a negative configured maximum, `getValue` returns `maxValue` itself,
  so the value is not in [0, maxValue] (`Mapping.ValueNegativeMaximum`).
  The initial value 0 is then not what `getValue` would give. For that
  reason the invariant `Scrubber.Inv` ties value to percentage only when
  `maxValue >= 0`.
- The resize listener is removed together with the pointer listeners
  (scrubber.js:154). So after a lost press, resizes are ignored too
  (`Scrubber.DeafIsPermanent`).
- `minValue` is parsed and stored but never read (`Scrubber.MinValueIrrelevant`).
- The start handler requires `which == 1`. A touchstart therefore starts
  tracking only if the browser reports `which` as 1 for it. The model takes
  `which` as a plain event field.

## Model

| member | source | states |
|---|---|---|
| Mapping.Ceil | scrubber.js:132 | `Math.ceil` gives the least integer not below its argument |
| Mapping.GetPercentage | scrubber.js:131-133 | for every position and offset, and any positive width, the percentage is in [0, 100] |
| Mapping.PercentageLeftOfTrack | scrubber.js:132 | a pointer at or left of the track's left edge gives 0 |
| Mapping.PercentageRightOfTrack | scrubber.js:132 | a pointer at or beyond `offsetLeft + clientWidth` gives 100 |
| Mapping.PercentageOverTrack | scrubber.js:132 | over the track the result is positive and is the least whole percent `r` with `100·(position − offsetLeft) ≤ r·clientWidth` (rounding up) |
| Mapping.PercentageBoundaries | scrubber.js:131-133 | the three cases together: 0 to the left, 100 at or beyond the right edge, ceiling of `100·distance/width` in between |
| Mapping.PercentageMatchesIntegerForm | scrubber.js:132 | the real-valued `min(100, ceil(max(0, d/w)·100))` equals the integer case-by-case characterisation `PercentageOf` for every input |
| Mapping.PercentageMonotone | scrubber.js:132 | with offset and width fixed, the percentage never decreases as the position increases |
| Mapping.GetValue | scrubber.js:135-137 | the value never exceeds `maxValue` |
| Mapping.ValueProportional | scrubber.js:136 | for `maxValue ≥ 0` and a percentage in [0, 100], the value is exactly `maxValue·percentage/100` and lies in [0, maxValue] |
| Mapping.ValueNegativeMaximum | scrubber.js:136 | for a negative `maxValue` and a percentage in [0, 100], the value is `maxValue` itself |
| Mapping.ValueMonotone | scrubber.js:136 | for every maximum and percentages in [0, 100], a larger percentage never gives a smaller value |
| Config.MinValue | scrubber.js:25 | the minimum is the parsed number, or 0 when the parse fails (a parsed 0 and the fallback coincide) |
| Config.MaxValue | scrubber.js:26 | the maximum is never 0. It is 100 exactly when the parse fails or yields 0 or 100, and otherwise it is the parsed number. A configured 0 becomes 100 |
| Scrubber.Create | scrubber.js:22-44 | a new instance listens and is not tracking. Its percentage and value are 0 and its geometry is the track's. Its position is 0. Its minimum follows the parse-or-0 rule, and its maximum follows the parse-or-100 rule (so it is non-zero). It satisfies the invariant |
| Scrubber.Recompute | scrubber.js:106-107 | recomputing sets percentage and value to those of the stored position and geometry, changes no other field, and establishes the invariant |
| Scrubber.ButtonPressed | scrubber.js:119-124 | a button counts as pressed when `buttons` is non-zero, or when `which` is non-zero if `buttons` is absent |
| Scrubber.RemoveEventListeners | scrubber.js:150-159 | removing the listeners clears `listening` and nothing else |
| Scrubber.OnStart | scrubber.js:69-85 | anything but a `which == 1` press on fill, knob or back changes nothing. Such a press re-reads the geometry, stores `pageX`, syncs percentage and value, and sets `tracking`. It keeps `listening` and the range, and preserves the invariant |
| Scrubber.OnMove | scrubber.js:87-100 | when not tracking it changes nothing. With no button pressed it only clears `listening`. With a button held it stores `pageX` and syncs percentage and value, keeping the geometry and `tracking`. It preserves the invariant |
| Scrubber.OnEnd | scrubber.js:102-110 | when not tracking it changes nothing. Otherwise it recomputes from the stored position and geometry, not from the event, and clears `tracking`. It preserves the invariant |
| Scrubber.OnResize | scrubber.js:126-129 | a resize sets `offsetLeft` and `clientWidth` to the re-read geometry, changes no other field, and preserves the invariant |
| Scrubber.Step | scrubber.js:139-159 | without listeners no event changes anything. No event changes the range, and every delivered event preserves the invariant |
| Scrubber.RunPreservesInv | scrubber.js:69-137 | percentage in [0, 100] and value consistent with percentage (for `maxValue ≥ 0`) hold after any sequence of events |
| Scrubber.ReachableInv | scrubber.js:22-110 | every state reached from construction has its percentage in [0, 100]. For `maxValue ≥ 0` its value is in [0, maxValue] |
| Scrubber.GuardsAlwaysPass | scrubber.js:73-93 | in reachable states the `percentage <= 100` guards never block. A primary press on the track always starts tracking at `pageX`. A move with a button held always follows the pointer |
| Scrubber.IgnoredPress | scrubber.js:70 | a press on another element, or with `which != 1`, leaves the whole state unchanged |
| Scrubber.DeafIsPermanent | scrubber.js:139-159 | listeners are added only at construction. Once removed, no sequence of events changes any field |
| Scrubber.LostPressFreezes | scrubber.js:91-92 | a move while tracking with no button pressed clears `listening` and leaves percentage, value and `tracking` (still true) as they were. Any later events change nothing |
| Scrubber.RecomputeIdempotent | scrubber.js:131-137 | recomputing twice from unchanged fields gives the same state as recomputing once |
| Scrubber.EndKeepsSyncedReading | scrubber.js:102-110 | a release with the reading already in sync with position and geometry only clears `tracking` |
| Scrubber.MinValueIrrelevant | scrubber.js:135-137 | two instances that differ only in `minValue` stay that way under the same events, so `minValue` never affects percentage or value |
| Scrubber.RedScenario | scrubber.js:166-173 | for the red example (maximum 255), pressing at the left edge gives 0/0. Dragging to the right edge gives 100/255, and dragging to the middle gives 50/127.5 |

## Left out

- DOM lookup and inline styling (`querySelector`, `style.*`, the knob and fill colours, `init`) are host I/O. The instance's geometry enters as `Geometry` values.
- The unused `scrubberBCR` reading and the `name` label have no effect on the logic.
- The `requestAnimationFrame` render loop `update` is left out. It only copies `percentage` into two style properties every frame.
- `preventDefault`, `stopPropagation` and the `willChange` hints are left out. They are browser effects only.
- The handlers' return values (`true` or `undefined`) are left out. No caller reads them.
- Listener registration is reduced to the boolean `listening`. All seven listeners are added together at construction and removed together.
- The document-level listeners shared by the three example instances are left out. The model covers one instance.
- The `Object.defineProperty` accessors for `percentage` and `value` are left out. They are installed on the constructor, not on instances, and have no effect on the modelled fields.
- Floating point is replaced by exact integer and real arithmetic. A double-precision rounding of `(d/w)·100` just above a whole number could make `Math.ceil` give one more than the exact result. The model does not reproduce that.
- A zero-width track is excluded by the `Width` type. In JavaScript, a press at `pageX == offsetLeft` on such a track computes `0/0`, which is NaN. `Math.max`, `Math.ceil` and `Math.min` pass it through, so the percentage becomes NaN while `tracking` is set. The press and move guards (scrubber.js:73, scrubber.js:93) then fail, so the press handler no longer re-reads the geometry and moves with a button held do not follow the pointer. A resize still re-reads the geometry (scrubber.js:127-128) but recomputes nothing. A release recomputes from the current geometry (scrubber.js:106). If the width is still 0, the result is NaN again and the instance never tracks again. If a resize gave the track a positive width before the release, the release gets a whole percentage and the instance recovers. Off the edge of a zero-width track the percentage is 100 or 0. `Scrubber.GuardsAlwaysPass` holds because `Width` rules out this NaN state.
- The `evt.pageX || evt.touches[0].pageX` fallback (scrubber.js:77, scrubber.js:94) is left out, and the coordinate is a plain event field. A touch event has no `pageX`, so the source always reads the first touch for it. A mouse event at `pageX == 0` has no `touches`, so the handler throws. In `onStart` that throw comes after `clientWidth` and `offsetLeft` were re-read but before `position`, `percentage`, `value` and `tracking` are set, so tracking never starts. In `onMove` it comes before anything is assigned. The model does not reproduce that partial update or the throw: it treats 0 as an ordinary coordinate.
- `parseInt` itself is left out. Its outcome is an `Option<int>`, with `None` standing for `NaN`.

=== FILE: config.dfy ===
/** The numeric part of the scrubber's configuration. The constructor reads
    `minValue` and `maxValue` as `parseInt(x, 10) || fallback`; the parse is
    outside the model and its outcome is an `Option<int>` (None for `NaN`). */
module Config {
  import opened Wrappers

  /** The parse outcomes of the two numeric configuration fields. */
  datatype Options = Options(minValue: Option<int>, maxValue: Option<int>)

  /** JavaScript's `parsed || fallback` on a parse outcome: both `NaN` and `0`
      are falsy, so either one selects the fallback. */
  function OrFallback(parsed: Option<int>, fallback: int): int
  {
    match parsed
    case Some(n) => if n != 0 then n else fallback
    case None => fallback
  }

  /** The configured minimum: the parsed number, or 0 when the parse fails.
      Because the fallback is itself 0, a parsed 0 is kept as well. */
  function MinValue(parsed: Option<int>): (r: int)
    ensures r == parsed.GetOr(0)
  {
    OrFallback(parsed, 0)
  }

  /** The configured maximum: the parsed number unless the parse fails or
      yields 0, and 100 then; so a configured maximum of 0 becomes 100. */
  function MaxValue(parsed: Option<int>): (r: int)
    ensures r != 0
    ensures r == 100 <==> parsed.None? || parsed.value == 0 || parsed.value == 100
    ensures parsed.Some? && parsed.value != 0 ==> r == parsed.value
    ensures parsed == Some(0) ==> r == 100
  {
    OrFallback(parsed, 100)
  }
}

=== FILE: mapping.dfy ===
/** The two pure mappings of the scrubber: a pointer coordinate over the track
    becomes a whole percentage, and a percentage becomes a value bounded by
    `maxValue`. Arithmetic is exact: JavaScript's doubles become `real`. */
module Mapping {

  /** A track width; the browser's `clientWidth` of a rendered track is positive. */
  type Width = w: int | 0 < w witness 1

  function IntMin(a: int, b: int): int { if a <= b then a else b }

  function RealMin(a: real, b: real): real { if a <= b then a else b }

  function RealMax(a: real, b: real): real { if a >= b then a else b }

  /** `Math.ceil` on an exact real: the least integer not below `x`. */
  function Ceil(x: real): (r: int)
    ensures r as real - 1.0 < x <= r as real
  {
    var f := x.Floor;
    if f as real == x then f else f + 1
  }

  /** Integer ceiling of `n / d`, used as a reference for `GetPercentage`. */
  function CeilDiv(n: int, d: Width): (q: int)
    ensures (q - 1) * d < n <= q * d
  {
    var f := n / d;
    assert n == d * f + n % d;
    if n % d == 0 then f else f + 1
  }

  /** `getPercentage`: the pointer's horizontal distance from the track's left
      edge, as a share of the track width, rounded up to a whole percent and
      clamped to [0, 100]. */
  function GetPercentage(position: int, offsetLeft: int, clientWidth: Width): (r: int)
    ensures 0 <= r <= 100
  {
    var ratio := RealMax(0.0, (position - offsetLeft) as real / clientWidth as real);
    IntMin(100, Ceil(ratio * 100.0))
  }

  /** `getValue`: `percentage` percent of `maxValue`, never above `maxValue`. */
  function GetValue(percentage: int, maxValue: int): (r: real)
    ensures r <= maxValue as real
  {
    RealMin(maxValue as real, maxValue as real * (percentage as real / 100.0))
  }

  /** The independent integer description of the percentage: 0 left of the
      track, 100 at or beyond its right edge, and in between the least whole
      percent that covers the pointer's distance. */
  function PercentageOf(position: int, offsetLeft: int, clientWidth: Width): int
  {
    if position <= offsetLeft then 0
    else if position >= offsetLeft + clientWidth then 100
    else CeilDiv(100 * (position - offsetLeft), clientWidth)
  }

  lemma DivBelowOne(d: int, w: Width)
    requires 0 < d < w
    ensures 0.0 < d as real / w as real < 1.0
  {
  }

  lemma DivMonotone(a: int, b: int, w: Width)
    requires a <= b
    ensures a as real / w as real <= b as real / w as real
  {
  }

  /** Left of the track (or on its edge) the percentage is 0. */
  lemma PercentageLeftOfTrack(position: int, offsetLeft: int, clientWidth: Width)
    requires position <= offsetLeft
    ensures GetPercentage(position, offsetLeft, clientWidth) == 0
  {
  }

  /** At or beyond the track's right edge the percentage is 100. */
  lemma PercentageRightOfTrack(position: int, offsetLeft: int, clientWidth: Width)
    requires position >= offsetLeft + clientWidth
    ensures GetPercentage(position, offsetLeft, clientWidth) == 100
  {
    DivMonotone(clientWidth, position - offsetLeft, clientWidth);
    var q := (position - offsetLeft) as real / clientWidth as real;
    assert clientWidth as real / clientWidth as real == 1.0;
    assert q * 100.0 >= 100.0;
  }

  /** Over the track the percentage is the least whole percent covering the
      pointer's distance from the left edge. */
  lemma PercentageOverTrack(position: int, offsetLeft: int, clientWidth: Width)
    requires offsetLeft < position < offsetLeft + clientWidth
    ensures var r := GetPercentage(position, offsetLeft, clientWidth);
            0 < r && (r - 1) * clientWidth < 100 * (position - offsetLeft) <= r * clientWidth
  {
    var d := position - offsetLeft;
    var w := clientWidth;
    var q := d as real / w as real;
    DivBelowOne(d, w);
    var r := Ceil(q * 100.0);
    assert r <= 100;
    assert GetPercentage(position, offsetLeft, clientWidth) == r;
    CeilScaled(q, d, w, r);
  }

  lemma MulPositive(x: real, y: real)
    requires 0.0 < x && 0.0 < y
    ensures 0.0 < x * y
  {
  }

  lemma CeilScaled(q: real, d: int, w: Width, r: int)
    requires q * w as real == d as real
    requires r as real - 1.0 < q * 100.0 <= r as real
    ensures (r - 1) * w < 100 * d <= r * w
  {
    var wr := w as real;
    var a := r as real;
    var lo := q * 100.0 - (a - 1.0);
    MulPositive(lo, wr);
    assert lo * wr == 100.0 * d as real - (a - 1.0) * wr;
    var hi := a - q * 100.0;
    if hi > 0.0 {
      MulPositive(hi, wr);
    }
    assert hi * wr == a * wr - 100.0 * d as real;
    assert ((r - 1) * w) as real == (a - 1.0) * wr;
    assert (r * w) as real == a * wr;
  }

  /** The boundary cases and the rounding-up rule of `getPercentage`. */
  lemma PercentageBoundaries(position: int, offsetLeft: int, clientWidth: Width)
    ensures position <= offsetLeft ==> GetPercentage(position, offsetLeft, clientWidth) == 0
    ensures position >= offsetLeft + clientWidth ==> GetPercentage(position, offsetLeft, clientWidth) == 100
    ensures offsetLeft < position < offsetLeft + clientWidth ==>
              var r := GetPercentage(position, offsetLeft, clientWidth);
              0 < r && (r - 1) * clientWidth < 100 * (position - offsetLeft) <= r * clientWidth
  {
    if position <= offsetLeft {
      PercentageLeftOfTrack(position, offsetLeft, clientWidth);
    } else if position >= offsetLeft + clientWidth {
      PercentageRightOfTrack(position, offsetLeft, clientWidth);
    } else {
      PercentageOverTrack(position, offsetLeft, clientWidth);
    }
  }

  /** The literal floating-point-shaped formula agrees with the integer one. */
  lemma PercentageMatchesIntegerForm(position: int, offsetLeft: int, clientWidth: Width)
    ensures GetPercentage(position, offsetLeft, clientWidth) == PercentageOf(position, offsetLeft, clientWidth)
  {
    PercentageBoundaries(position, offsetLeft, clientWidth);
    if offsetLeft < position < offsetLeft + clientWidth {
      var r := GetPercentage(position, offsetLeft, clientWidth);
      var q := CeilDiv(100 * (position - offsetLeft), clientWidth);
      CeilDivUnique(100 * (position - offsetLeft), clientWidth, r, q);
    }
  }

  lemma CeilDivUnique(n: int, d: Width, r: int, q: int)
    requires (r - 1) * d < n <= r * d
    requires (q - 1) * d < n <= q * d
    ensures r == q
  {
  }

  lemma CeilMonotone(x: real, y: real)
    requires x <= y
    ensures Ceil(x) <= Ceil(y)
  {
  }

  /** With the track fixed, moving the pointer right never lowers the percentage. */
  lemma PercentageMonotone(p1: int, p2: int, offsetLeft: int, clientWidth: Width)
    requires p1 <= p2
    ensures GetPercentage(p1, offsetLeft, clientWidth) <= GetPercentage(p2, offsetLeft, clientWidth)
  {
    DivMonotone(p1 - offsetLeft, p2 - offsetLeft, clientWidth);
    var a := RealMax(0.0, (p1 - offsetLeft) as real / clientWidth as real);
    var b := RealMax(0.0, (p2 - offsetLeft) as real / clientWidth as real);
    CeilMonotone(a * 100.0, b * 100.0);
  }

  /** For a non-negative maximum and a percentage in range, the value is exactly
      that share of the maximum and lies in [0, maxValue]. */
  lemma ValueProportional(percentage: int, maxValue: int)
    requires 0 <= percentage <= 100
    requires 0 <= maxValue
    ensures GetValue(percentage, maxValue) == (maxValue * percentage) as real / 100.0
    ensures 0.0 <= GetValue(percentage, maxValue) <= maxValue as real
  {
    var m := maxValue as real;
    var share := percentage as real / 100.0;
    assert 0.0 <= share <= 1.0;
    assert m * share == (maxValue * percentage) as real / 100.0;
    assert m - m * share == m * (1.0 - share);
    if 0.0 < m && share < 1.0 {
      MulPositive(m, 1.0 - share);
    }
    assert m * share <= m;
    if 0.0 < m && 0.0 < share {
      MulPositive(m, share);
    }
  }

  /** A negative maximum is returned unchanged for every in-range percentage. */
  lemma ValueNegativeMaximum(percentage: int, maxValue: int)
    requires 0 <= percentage <= 100
    requires maxValue < 0
    ensures GetValue(percentage, maxValue) == maxValue as real
  {
  }

  /** For every maximum, a larger percentage never yields a smaller value: with
      a non-negative maximum the value is proportional, and with a negative
      one it is the constant `maxValue`. */
  lemma ValueMonotone(p1: int, p2: int, maxValue: int)
    requires 0 <= p1 <= p2 <= 100
    ensures GetValue(p1, maxValue) <= GetValue(p2, maxValue)
  {
    if maxValue < 0 {
      ValueNegativeMaximum(p1, maxValue);
      ValueNegativeMaximum(p2, maxValue);
    } else {
      ValueProportional(p1, maxValue);
      ValueProportional(p2, maxValue);
      assert maxValue * p1 <= maxValue * p2;
    }
  }
}

=== FILE: scrubber.dfy ===
/** The scrubber's interaction state machine, with the DOM removed: a record of
    the instance's fields, one transition per event handler, and a dispatcher
    that stops delivering events once the listeners have been removed. */
module Scrubber {
  import opened Wrappers
  import opened Mapping
  import Config

  /** The element an event was dispatched to. */
  datatype Target = Fill | Knob | Back | Elsewhere

  /** The track's geometry as the DOM reports it when the handler reads it. */
  datatype Geometry = Geometry(offsetLeft: int, clientWidth: Width)

  /** The events the instance listens to. `Down` is mousedown/touchstart, `Move`
      is mousemove/touchmove, `Up` is mouseup/touchend; `Down` and `Resize`
      carry the geometry the handler re-reads from the track element. */
  datatype Event =
    | Down(target: Target, which: int, pageX: int, geometry: Geometry)
    | Move(which: int, buttons: Option<int>, pageX: int)
    | Up
    | Resize(geometry: Geometry)

  /** The fields of one instance. `listening` stands for the seven registered
      document and window listeners, which are added and removed together. */
  datatype State = State(
    minValue: int,
    maxValue: int,
    position: int,
    offsetLeft: int,
    clientWidth: Width,
    percentage: int,
    value: real,
    tracking: bool,
    listening: bool)
  {
    function Track(): Geometry { Geometry(offsetLeft, clientWidth) }
  }

  /** The percentage stays in [0, 100], and the value is the one `getValue`
      gives for it (from the start only when the maximum is non-negative: the
      initial value 0 is not `getValue(0, maxValue)` for a negative maximum). */
  predicate Inv(s: State)
  {
    && 0 <= s.percentage <= 100
    && (s.maxValue >= 0 ==> s.value == GetValue(s.percentage, s.maxValue))
  }

  /** The percentage and value are those of the stored position and geometry. */
  predicate Synced(s: State)
  {
    && s.percentage == GetPercentage(s.position, s.offsetLeft, s.clientWidth)
    && s.value == GetValue(s.percentage, s.maxValue)
  }

  /** The targets that belong to the widget's interactive surface. */
  predicate IsTrackTarget(t: Target)
  {
    t == Fill || t == Knob || t == Back
  }

  /** The constructor: defaulted range, geometry from the track, zeroed
      position, percentage and value, not tracking, listeners added. */
  function Create(options: Config.Options, g: Geometry): (s: State)
    ensures Inv(s) && s.listening && !s.tracking
    ensures s.percentage == 0 && s.value == 0.0 && s.Track() == g
    ensures s.position == 0
    ensures s.minValue == options.minValue.GetOr(0)
    ensures s.maxValue == Config.MaxValue(options.maxValue) && s.maxValue != 0
  {
    var s0 := State(Config.MinValue(options.minValue), Config.MaxValue(options.maxValue),
                    0, g.offsetLeft, g.clientWidth, 0, 0.0, false, true);
    OnResize(s0, g)
  }

  /** Sets percentage and value from the stored position, geometry and
      maximum, as the start, move and end handlers do. */
  function Recompute(s: State): (r: State)
    ensures Inv(r) && Synced(r)
    ensures r.(percentage := s.percentage, value := s.value) == s
  {
    var p := GetPercentage(s.position, s.offsetLeft, s.clientWidth);
    s.(percentage := p, value := GetValue(p, s.maxValue))
  }

  /** `buttonPressed`: the `buttons` bit mask when the event has one, else `which`. */
  function ButtonPressed(which: int, buttons: Option<int>): (r: bool)
    ensures r <==> buttons.GetOr(which) != 0
  {
    if buttons.None? then which != 0 else buttons.value != 0
  }

  /** `removeEventListeners`: the instance stops hearing every event. */
  function RemoveEventListeners(s: State): (r: State)
    ensures !r.listening
    ensures r.(listening := s.listening) == s
  {
    s.(listening := false)
  }

  /** `onStart`: a primary-button press on the fill, knob or back re-reads the
      geometry, takes the pointer's coordinate and starts tracking. */
  function OnStart(s: State, target: Target, which: int, pageX: int, g: Geometry): (r: State)
    ensures !(IsTrackTarget(target) && which == 1) ==> r == s
    ensures IsTrackTarget(target) && which == 1 && s.percentage <= 100 ==>
              && r.tracking && r.position == pageX && r.Track() == g && Synced(r)
              && r.listening == s.listening
              && r.minValue == s.minValue && r.maxValue == s.maxValue
    ensures Inv(s) ==> Inv(r)
  {
    if IsTrackTarget(target) && which == 1 then
      if s.percentage <= 100 then
        var t := s.(clientWidth := g.clientWidth, offsetLeft := g.offsetLeft, position := pageX);
        Recompute(t).(tracking := true)
      else s
    else s
  }

  /** `onMove`: while tracking, a move without a pressed button removes the
      listeners; otherwise the pointer's coordinate is taken and percentage
      and value follow it. */
  function OnMove(s: State, which: int, buttons: Option<int>, pageX: int): (r: State)
    ensures !s.tracking ==> r == s
    ensures s.tracking && !ButtonPressed(which, buttons) ==>
              !r.listening && r.(listening := s.listening) == s
    ensures s.tracking && ButtonPressed(which, buttons) && s.percentage <= 100 ==>
              && r.position == pageX && r.Track() == s.Track() && Synced(r)
              && r.tracking && r.listening == s.listening
              && r.minValue == s.minValue && r.maxValue == s.maxValue
    ensures Inv(s) ==> Inv(r)
  {
    if !s.tracking then s
    else if !ButtonPressed(which, buttons) then RemoveEventListeners(s)
    else if s.percentage <= 100 then Recompute(s.(position := pageX))
    else s
  }

  /** `onEnd`: a release while tracking recomputes from the stored position
      (the event's own coordinate is not read) and stops tracking. */
  function OnEnd(s: State): (r: State)
    ensures !s.tracking ==> r == s
    ensures s.tracking ==>
              && !r.tracking && Synced(r)
              && r.position == s.position && r.Track() == s.Track()
              && r.listening == s.listening
              && r.minValue == s.minValue && r.maxValue == s.maxValue
    ensures Inv(s) ==> Inv(r)
  {
    if !s.tracking then s
    else Recompute(s).(tracking := false)
  }

  /** `onResize`: the geometry is re-read; nothing else changes. */
  function OnResize(s: State, g: Geometry): (r: State)
    ensures r.Track() == g
    ensures r.(offsetLeft := s.offsetLeft, clientWidth := s.clientWidth) == s
    ensures Inv(s) ==> Inv(r)
  {
    s.(clientWidth := g.clientWidth, offsetLeft := g.offsetLeft)
  }

  /** Event delivery: each event goes to its handler while the listeners are
      registered; once they are removed, nothing is delivered. */
  function Step(s: State, e: Event): (r: State)
    ensures !s.listening ==> r == s
    ensures r.minValue == s.minValue && r.maxValue == s.maxValue
    ensures Inv(s) ==> Inv(r)
  {
    if !s.listening then s
    else match e
      case Down(target, which, pageX, g) => OnStart(s, target, which, pageX, g)
      case Move(which, buttons, pageX) => OnMove(s, which, buttons, pageX)
      case Up => OnEnd(s)
      case Resize(g) => OnResize(s, g)
  }

  /** Delivers a sequence of events in order. */
  function Run(s: State, events: seq<Event>): State
    decreases |events|
  {
    if |events| == 0 then s else Run(Step(s, events[0]), events[1..])
  }

  /** The invariant holds after any sequence of events. */
  lemma {:induction false} RunPreservesInv(s: State, events: seq<Event>)
    requires Inv(s)
    ensures Inv(Run(s, events))
    decreases |events|
  {
    if |events| > 0 {
      RunPreservesInv(Step(s, events[0]), events[1..]);
    }
  }

  /** Every state reachable from construction satisfies the invariant; in
      particular its percentage is in [0, 100] and, for a non-negative maximum,
      its value is in [0, maxValue]. */
  lemma ReachableInv(options: Config.Options, g: Geometry, events: seq<Event>)
    ensures var s := Run(Create(options, g), events);
            && Inv(s) && 0 <= s.percentage <= 100
            && (s.maxValue >= 0 ==> 0.0 <= s.value <= s.maxValue as real)
  {
    var s := Run(Create(options, g), events);
    RunPreservesInv(Create(options, g), events);
    if s.maxValue >= 0 {
      ValueProportional(s.percentage, s.maxValue);
    }
  }

  /** The `percentage <= 100` guards in the start and move handlers never
      block: under the invariant, a primary press on the track always starts
      tracking, and a move with a button held always follows the pointer. */
  lemma GuardsAlwaysPass(s: State, e: Event)
    requires Inv(s) && s.listening
    ensures e.Down? && IsTrackTarget(e.target) && e.which == 1 ==>
              Step(s, e).tracking && Step(s, e).position == e.pageX
    ensures e.Move? && s.tracking && ButtonPressed(e.which, e.buttons) ==>
              Step(s, e).position == e.pageX && Synced(Step(s, e))
  {
  }

  /** A press that is not a primary-button press on the track changes nothing. */
  lemma IgnoredPress(s: State, target: Target, which: int, pageX: int, g: Geometry)
    requires !IsTrackTarget(target) || which != 1
    ensures Step(s, Down(target, which, pageX, g)) == s
  {
  }

  /** Once the listeners are gone, no sequence of events changes any field. */
  lemma {:induction false} DeafIsPermanent(s: State, events: seq<Event>)
    requires !s.listening
    ensures Run(s, events) == s
    decreases |events|
  {
    if |events| > 0 {
      DeafIsPermanent(Step(s, events[0]), events[1..]);
    }
  }

  /** A move while tracking with no button pressed removes the listeners and
      leaves percentage, value and `tracking` (still true) as they were; after
      it the instance never changes again, whatever follows. */
  lemma {:induction false} LostPressFreezes(s: State, which: int, buttons: Option<int>, pageX: int,
                                            rest: seq<Event>)
    requires s.listening && s.tracking
    requires !ButtonPressed(which, buttons)
    ensures var f := Run(s, [Move(which, buttons, pageX)] + rest);
            && f == s.(listening := false)
            && f.tracking && f.percentage == s.percentage && f.value == s.value
  {
    var events := [Move(which, buttons, pageX)] + rest;
    assert events[0] == Move(which, buttons, pageX);
    assert events[1..] == rest;
    DeafIsPermanent(Step(s, events[0]), rest);
  }

  /** Recomputing twice from unchanged fields gives what recomputing once gives. */
  lemma RecomputeIdempotent(s: State)
    ensures Recompute(Recompute(s)) == Recompute(s)
  {
  }

  /** A release right after a synced move (no resize in between) only ends tracking. */
  lemma EndKeepsSyncedReading(s: State)
    requires s.tracking && Synced(s)
    ensures OnEnd(s) == s.(tracking := false)
  {
  }

  /** `minValue` never influences any other field: running the same events on
      instances that differ only in `minValue` yields states that differ only
      in `minValue`. */
  lemma {:induction false} MinValueIrrelevant(s: State, k: int, events: seq<Event>)
    ensures Run(s.(minValue := k), events) == Run(s, events).(minValue := k)
    decreases |events|
  {
    if |events| > 0 {
      assert Step(s.(minValue := k), events[0]) == Step(s, events[0]).(minValue := k);
      MinValueIrrelevant(Step(s, events[0]), k, events[1..]);
    }
  }

  /** The red example instance (range 0..255) on a 200-pixel track at offset
      10: press at the left edge, drag to the right edge, drag to the middle. */
  lemma RedScenario()
    ensures var s0 := Create(Config.Options(Some(0), Some(255)), Geometry(10, 200));
            var s1 := Step(s0, Down(Knob, 1, 10, Geometry(10, 200)));
            var s2 := Step(s1, Move(1, Some(1), 210));
            var s3 := Step(s2, Move(1, Some(1), 110));
            && s1.tracking && s1.percentage == 0 && s1.value == 0.0
            && s2.percentage == 100 && s2.value == 255.0
            && s3.percentage == 50 && s3.value == 127.5
  {
  }
}

=== FILE: wrappers.dfy ===
/** The optional-value datatype used for results that may be missing, such as
    a `parseInt` that yields `NaN` or a `buttons` field the event does not carry. */
module Wrappers {

  datatype Option<+T> = None | Some(value: T) {

    /** The carried value when there is one, and `default` when the parse or lookup came back empty */
    function GetOr(default: T): T {
      match this
      case Some(v) => v
      case None => default
    }
  }
}
